=== FILE: README.md ===
# AirDataAnnouncer callout logic in Dafny

AirDataAnnouncer is a game plugin that plays aircraft callouts: radar-altitude
callouts at thresholds from 2500 down to 10, Mach callouts, gear callouts, and a
"contact" callout on touchdown. On every frame it compares the tracked
aircraft's current readings with the values it last stored. Whenever an edge is detected, it plays the matching clip from the
selected sound pack. The altitude thresholds are in display units: metres
under the game's default metric setting, and feet when the unit setting is
imperial, because only then is the radar altitude (metres) converted to feet
before the comparison.

This project models that per-frame decision logic as pure functions:

- a `History` record holds the previous-frame values;
- each detector maps (history, sample, configuration) to (new history,
  emitted identifiers);
- `Update` composes the detectors in the plugin's order (altitude, Mach,
  gear, contact) behind its readiness gate;
- a functional model covers hooking a new aircraft;
- a loop-based method models how the sound pack resolves each callout
  identifier to a file.

Modules and files:

- `Text` (`text.dfy`): decimal spelling of numbers, the substring test, and
  their inverse/reference lemmas.
- `Types` (`types.dfy`): the configuration snapshot, the aircraft sample, the
  history, and the unit conversion.
- `Callouts` (`callouts.dfy`): the identifier spellings and the loader's fixed
  identifier list.
- `AltitudeCallouts`, `MachCallouts`, `GearCallouts`, `ContactCallout`: one
  module per detector.
- `SoundPack` (`soundpack.dfy`): clip resolution, the loader, and playback
  lookup.
- `Announcer` (`announcer.dfy`): plugin state, `Update`, the aircraft hook, and
  pack reloading.

Modelling choices:

- Radar altitude and Mach are single-precision floats in the plugin's code. Here they
  are `real`. The imperial conversion is multiplication by the real 3.28084,
  and the Mach bands use `.Floor`.
- The host's gear-state enumeration is represented by its member name
  (`GearState(name)`), because the up-and-locked rule inspects that name. Two
  states are equal exactly when their names are.
- Every enabled flag, the 2500 style and the unit setting are inputs. The
  Mach number and the per-gear weight-on-wheel readings are inputs too.
- File presence and successful decoding are predicates over file names within
  the sound pack directory.

Behaviour of the plugin's code reproduced as written:

- The hook stores the unconverted radar altitude, while frames with the gear
  down store the altitude in display units. `Announcer.UnconvertedSeedMissesCrossing` shows a
  2500 ft crossing in imperial units that is missed because of this.
- A frame with the gear up neither checks nor stores the altitude. Lowering
  the gear late therefore fires, on that frame, every enabled threshold
  crossed while the gear was up. `AltitudeCallouts.LateGearLoweringCatchesUp`
  states this.
- The previous Mach number survives an aircraft swap.
  `Announcer.MachSurvivesSwap` shows a "Mach 1" callout on the first frame of a
  new aircraft.
- A `.wav` file that exists but fails to load is not replaced by the `.ogg`
  file.
- A disabled contact callout freezes the contact history, including the
  grounded flag.
- Starting a pack load empties the clip cache and clears the loaded flag. For
  a single load, frames are therefore skipped until it finishes, and a missing
  sound pack directory leaves the plugin unready. This holds only while loads
  do not overlap; see "## Left out". The old cache is not served during a
  reload.

## Model

| member | source | states |
|---|---|---|
| `Announcer.Update` | AirDataAnnouncer-Core.cs:103-117 | Not ready (no aircraft or sounds not loaded): nothing changes, nothing is emitted or played. Ready: the emissions are altitude, Mach, gear, then contact, each computed against the previous frame's history. Only the history changes. Its Mach, gear and altitude fields take the frame's values, and its grounded and armed flags are those the contact detector computes from the previous frame's history. Every enabled threshold's identifier is emitted iff the gear is down and the threshold was crossed downwards. With the configured Mach keys, every emitted identifier is one the loader tries. The played clips are the cached clips of the emitted identifiers. |
| `Announcer.Ready` | AirDataAnnouncer-Core.cs:111 | The frame gate: an aircraft is tracked and the loaded flag is set. |
| `AltitudeCallouts.CheckAltThreshold` | AirDataAnnouncer-Core.cs:371-386 | Emits at most one identifier, exactly when the threshold is enabled and prev > T >= cur. The identifier is T's decimal spelling, or "2500_UK" for 2500 in British style. |
| `AltitudeCallouts.CheckBands` | AirDataAnnouncer-Core.cs:253-265 | Every emitted identifier belongs to an enabled, crossed threshold of the list. Every enabled, crossed threshold is emitted. A list that repeats no threshold emits no identifier twice. |
| `AltitudeCallouts.FiredPositions` | AirDataAnnouncer-Core.cs:253-265 | The positions of the fired thresholds lie within the list and strictly increase. |
| `AltitudeCallouts.CheckBandsInListOrder` | AirDataAnnouncer-Core.cs:253-265 | The k-th identifier of a check is that of the threshold at the k-th fired position, so one tick emits identifiers in list order: 2500 first, 10 last. |
| `AltitudeCallouts.ProcessAltitude` | AirDataAnnouncer-Core.cs:240-269 | Gear up: nothing is emitted and the history is unchanged. Gear down: for each threshold, its identifier is emitted iff it is enabled and crossed downwards against the display-unit altitude. No identifier is emitted twice. The remembered altitude becomes that display altitude and nothing else changes. |
| `AltitudeCallouts.BandNamesIdentify` | AirDataAnnouncer-Core.cs:253-265 | The 13 thresholds' identifiers are distinct. So an identifier in the output means that threshold fired, in both directions. |
| `AltitudeCallouts.NoRefireBelowThreshold` | AirDataAnnouncer-Core.cs:268 | Once the remembered altitude is at or below T, T never fires again over any run whose altitudes stay at or below T. |
| `AltitudeCallouts.FiresOnceOnCrossing` | AirDataAnnouncer-Core.cs:253-268 | With the gear down, suppose the altitude stays above T before tick k and at or below T from tick k on. Then T fires on tick k and on no other tick. |
| `AltitudeCallouts.GearUpFrameKeepsReference` | AirDataAnnouncer-Core.cs:240-269 | A gear-up frame emits nothing and the following frame behaves as if it had come straight after the stored history. |
| `AltitudeCallouts.LateGearLoweringCatchesUp` | AirDataAnnouncer-Core.cs:242-268 | On the first gear-down frame after a gear-up frame, a threshold fires iff it is enabled and was crossed between the altitude stored before the gear-up frame and the current display altitude. |
| `Types.DisplayAltitude` | AirDataAnnouncer-Core.cs:244-251 | Metric returns the reading unchanged. Imperial returns the reading times 3.28084 (metres to feet), so it scales away from zero and a non-negative reading never decreases. |
| `MachCallouts.ProcessMach` | AirDataAnnouncer-Core.cs:348-369 | "subsonic" is emitted iff enabled and prev >= 1.0 > cur. "Mach N" is emitted iff N = floor(cur) > floor(prev) and N is an enabled key. At most one callout fires. The remembered Mach always becomes cur. |
| `MachCallouts.MachBandOncePerAcceleration` | AirDataAnnouncer-Core.cs:359-368 | While the Mach number does not decrease, each "Mach N" fires on at most one tick. |
| `MachCallouts.SkippedBandIsSilent` | AirDataAnnouncer-Core.cs:359-365 | Going from 0.9 to 2.1 in one tick calls out only "Mach 2". |
| `GearCallouts.CommandedGear` | AirDataAnnouncer-Core.cs:198-207 | An unchanged lever emits nothing. "Gear Down" is emitted iff false-to-true and enabled. "Gear Up" is emitted iff true-to-false and enabled. At most one fires, and nothing else is ever emitted. |
| `GearCallouts.PhysicalGear` | AirDataAnnouncer-Core.cs:209-237 | An unchanged state emits nothing. "Gear Down and Locked" is emitted iff the state changed to LockedExtended and that callout is enabled. "Gear Up and Locked" is emitted iff the state changed, its name passes the retracted-and-not-transient name rule, and that callout is enabled. At most one fires, and nothing else is ever emitted. |
| `GearCallouts.IsUpAndLockedName` | AirDataAnnouncer-Core.cs:226-231 | A name reads as up-and-locked iff it contains "Retract", "Stow", or both "Up" and "Lock", and contains neither "ing" nor "Ing" (ordinal, case-sensitive). |
| `GearCallouts.ProcessGear` | AirDataAnnouncer-Core.cs:196-238 | Both previous gear values are always replaced. Each of the four gear callouts is emitted under exactly its edge condition, and no callout twice. Nothing is emitted when neither signal changed. |
| `GearCallouts.LockedExtendedIsNotUp` | AirDataAnnouncer-Core.cs:216-234 | The LockedExtended name never passes the up-and-locked rule, so the two locked callouts exclude each other. |
| `GearCallouts.LackingKeywordsIsNotUp` | AirDataAnnouncer-Core.cs:229 | A name lacking 'R', 'S' and 'U' never reads as retracted. |
| `GearCallouts.TransientIsNotUp` | AirDataAnnouncer-Core.cs:226-231 | A name containing "ing" never passes the up-and-locked rule. |
| `GearCallouts.RetractedIsUp` | AirDataAnnouncer-Core.cs:226-231 | A name containing "Retract" and no 'g' passes the up-and-locked rule. |
| `GearCallouts.TransientStatesAreSilent` | AirDataAnnouncer-Core.cs:223-234 | Entering "Retracting" or "Extending" emits nothing. |
| `GearCallouts.LoweringScenario` | AirDataAnnouncer-Core.cs:210-219 | The sequence LockedRetracted, then Extending, then LockedExtended emits nothing on the first transition and exactly "Gear Down and Locked" on the second. |
| `GearCallouts.RetractedNameFires` | AirDataAnnouncer-Core.cs:222-234 | Entering "LockedRetracted" emits exactly "Gear Up and Locked". |
| `ContactCallout.ProcessContact` | AirDataAnnouncer-Core.cs:157-194 | Disabled, or no gears cached: no state change at all and no output. Otherwise "contact" is emitted iff the detector was armed, a wheel is on the ground now, and none was the frame before. The grounded flag is updated. After the step the detector is armed iff it either arms now (airborne, above 2.0) or stays armed without firing. |
| `ContactCallout.IsGrounded` | AirDataAnnouncer-Core.cs:162-170 | Grounded means some cached landing gear reports weight on its wheel. |
| `ContactCallout.Arms` | AirDataAnnouncer-Core.cs:175-178 | A reading arms the detector when no wheel is on the ground and the radar altitude exceeds 2.0. |
| `ContactCallout.ContactOncePerCycle` | AirDataAnnouncer-Core.cs:172-193 | Between any two "contact" callouts of a run there is a tick that arms the detector. |
| `ContactCallout.TakeoffAndLanding` | AirDataAnnouncer-Core.cs:159-193 | Starting grounded and disarmed, any tick that arms the detector (no wheel on the ground, radar altitude above 2.0) followed by any tick with a wheel on the ground emits nothing and then exactly "contact". |
| `Announcer.HookCurrentAircraft` | AirDataAnnouncer-Core.cs:629-642 | After a swap an aircraft is tracked and its gears are cached. The previous gear flag, gear state and radar altitude (unconverted) come from the new aircraft. The grounded flag is true and the contact detector is disarmed. The previous Mach number, cache and loaded flag are untouched. |
| `Announcer.FirstFrameAfterHookIsQuiet` | AirDataAnnouncer-Core.cs:629-642 | A first frame with the values the hook saw emits no altitude, gear or contact callout, in either unit system. Only a Mach callout can fire. |
| `Announcer.MachSurvivesSwap` | AirDataAnnouncer-Core.cs:629-642 | The previous Mach number is not reset by a swap. A new aircraft at Mach 1.2, after one last seen at 0.8, hears "Mach 1" on its first frame. |
| `Announcer.UnconvertedSeedMissesCrossing` | AirDataAnnouncer-Core.cs:636-640 | In imperial units, hooking at 800 and reading 760 on the first frame crosses 2500 ft in feet, but "2500" is not emitted. |
| `Announcer.Initial` | AirDataAnnouncer-Core.cs:64-84 | Before any load and any aircraft: no aircraft, no gears cached, sounds not loaded, so not ready, and an empty cache. Every history field holds its zero value (Mach 0, altitude 0, gear not deployed, the enumeration's default state, not grounded, disarmed). |
| `Announcer.BeginLoad` | AirDataAnnouncer-Core.cs:421-424 | Starting a load empties the cache and clears the loaded flag, so the plugin is not ready. History, aircraft and cached gears are kept. |
| `Announcer.FinishLoad` | AirDataAnnouncer-Core.cs:485 | The loader's cache and loaded flag are installed, so the plugin is ready iff an aircraft is tracked and the load succeeded. History, aircraft and cached gears are kept. |
| `Announcer.ReloadSoundPack` | AirDataAnnouncer-Core.cs:421-487 | The loaded flag ends equal to whether the pack directory exists. A missing directory leaves an empty cache. Otherwise each identifier of the fixed list is cached iff it resolves (.wav preferred, .ogg only without a .wav), with its resolved clip. Keys come only from that list and each clip is named after its key. History, aircraft and cached gears are kept. |
| `Announcer.HookDuringLoadIsQuiet` | AirDataAnnouncer-Core.cs:111 | An aircraft hooked after a load began does not open the gate. The next frame changes nothing, emits nothing and plays nothing. |
| `Announcer.LoadAfterHookIsReady` | AirDataAnnouncer-Core.cs:485 | When that load succeeds, the plugin is ready for the hooked aircraft. |
| `SoundPack.ResolveClip` | AirDataAnnouncer-Core.cs:451-478 | If the .wav file exists, a clip is produced iff it decodes, and the clip is the .wav. Otherwise a clip is produced iff the .ogg file exists and decodes, and the clip is the .ogg. The clip is named after its identifier. |
| `SoundPack.FilesToLoad` | AirDataAnnouncer-Core.cs:443-449 | The list a load tries is exactly the known identifier list, in order: the twenty named callouts, then "Mach 1" to "Mach 10", thirty entries. |
| `SoundPack.ResolveAll` | AirDataAnnouncer-Core.cs:451-481 | After the loop over a list, an identifier of the list is cached iff it resolves to a clip, and is then cached with that clip. Nothing outside the list is cached, and there are no more entries than list items. |
| `SoundPack.LoadSoundPack` | AirDataAnnouncer-Core.cs:421-487 | A missing pack gives an empty cache and not-loaded. Otherwise the sound pack is loaded, and each identifier of the fixed list is present iff it resolves, with its resolved clip. Keys are drawn from the list only, each clip is named after its key, and there are at most 30 entries. |
| `SoundPack.PlaySound` | AirDataAnnouncer-Core.cs:398-416 | A clip is played iff the identifier is cached, and it is the cached clip. |
| `SoundPack.Playback` | AirDataAnnouncer-Core.cs:398-416 | The clips played for a list of identifiers are exactly cached clips of those identifiers. Every cached identifier's clip plays, there are at most as many clips as identifiers, and nothing plays when none is cached. |
| `SoundPack.PlaybackAppend` | AirDataAnnouncer-Core.cs:398-416 | Playing two lists in turn equals playing their concatenation, so clips keep the order of their identifiers. |
| `SoundPack.PlaybackCounts` | AirDataAnnouncer-Core.cs:398-416 | Each clip plays exactly as many times as there are positions in the list whose identifier is cached with it. |
| `Callouts.MachIdList` | AirDataAnnouncer-Core.cs:449 | The list built for 1..n has n entries, and entry k is "Mach k+1". |
| `Callouts.AltitudeName` | AirDataAnnouncer-Core.cs:377-382 | A threshold's identifier is its decimal spelling, except "2500_UK" for 2500 in British style. |
| `Callouts.MachNameSpelling` | AirDataAnnouncer-Core.cs:364 | "Mach N" starts with "Mach ". It is followed by '-' for negative N, or else by digits that read back as N. |
| `Callouts.AltitudeNameKnown` | AirDataAnnouncer-Core.cs:444-447 | Every threshold's identifier, in either 2500 style, is on the loader's list. |
| `Callouts.MachNameKnown` | AirDataAnnouncer-Core.cs:449 | "Mach N" for N in 1..10 is on the loader's list. |
| `Callouts.AltitudeNameInjective` | AirDataAnnouncer-Core.cs:377-382 | Distinct altitudes have distinct identifiers under a fixed style, because "2500_UK" is not a decimal spelling. |
| `Callouts.MachNameInjective` | AirDataAnnouncer-Core.cs:364 | "Mach M" equals "Mach N" only when M = N. |
| `Text.ParseNatToString` | AirDataAnnouncer-Core.cs:377 | Reading back the decimal spelling of a number gives the number. |
| `Text.NatToStringInjective` | AirDataAnnouncer-Core.cs:377 | Different numbers have different decimal spellings. |
| `Text.IntToStringInjective` | AirDataAnnouncer-Core.cs:364 | Different integers have different spellings, sign included. |
| `Text.ContainsIffOccurs` | AirDataAnnouncer-Core.cs:226-229 | The substring test holds iff the pattern occurs at some position. |

## Left out

- Unity and BepInEx plumbing are left out: `Awake`, audio-source creation,
  `DontDestroyOnLoad`, and Harmony patching. These are engine calls.
  `HookCurrentAircraft` is modelled only by its effect on the plugin state.
- The hook's behaviour once the plugin object has been destroyed is left out.
  `Awake` sets the instance before it installs the hook
  (AirDataAnnouncer-Core.cs:93, :97), so the instance check of the hook
  (:632) fails only after destruction. The hook then still records the
  aircraft in a static field (:631), but no frame runs any more, so nothing
  the model describes can follow.
- The audio output (`PlayOneShot`) and the master volume are left out.
  Playback is modelled as the list of clips handed to the audio source.
- Asynchronous file loading with `UnityWebRequest` is left out. The loader is
  modelled as one atomic step, and its per-file outcome is the decode
  predicate. A load is modelled as `BeginLoad`, then the loader, then
  `FinishLoad`, with frames in between seeing a not-ready plugin.
- Overlapping loads are left out. Changing the sound pack setting starts a
  second load coroutine without stopping one already running
  (AirDataAnnouncer-Core.cs:503-506). The earlier load can then keep writing
  clips of the old pack into the cache the later one has just cleared, and
  can set the loaded flag while the later load is still running or after it
  found its directory missing. The resulting cache can mix two packs, which
  `SoundPack.LoadSoundPack`'s per-identifier contract does not describe. The
  model treats every load as one atomic step.
- Losing the aircraft is left out. The model's `hasAircraft` is set by the
  hook and never becomes false. The plugin instead compares a Unity object
  with null (AirDataAnnouncer-Core.cs:111), which also holds after that
  object is destroyed; the model has no such event.
- The branch where a cache key holds a null clip is left out. The loader only
  stores non-null clips, so that branch cannot be reached.
- Logging of the available packs when the selected one is missing is left out.
  It is diagnostic output only.
- The on-screen debug message, its timer and the debug logging are left out.
  So are `OnGUI` and the configuration drawers in `BindCallout` and
  `BindCallout2500`. These are UI only.
- `SetupConfig` and configuration binding are left out. Every flag is an input.
  `Types.ValidConfig` records the one fact the binding guarantees: the Mach
  keys are 1..10.
- `IsImperial` and `InitializeReflection` are left out; they are reflection
  over game types. The unit setting is an input.
- Speed-of-sound lookup and the Mach computation are left out; they are
  foreign calls. The current Mach number is an input.
- `WeightOnWheel(0.1f)` is left out. Each gear's weight-on-wheel reading is an
  input.
- Float precision is not modelled. This includes the rounding of `3.28084f`,
  NaN or infinite Mach when the speed of sound is zero, and the overflow of
  `(int)Mathf.Floor` for huge Mach numbers.
- `Types.DisplayAltitude`: the model multiplies exact reals. The plugin's code
  multiplies single-precision floats, so crossings within float rounding of a
  threshold may differ.
- A callout queue, pull-up warning, minimums, retard callout and per-callout
  pack overrides are not modelled, because the plugin has none of them.

=== FILE: altitude.dfy ===
/**
 Altitude callouts: a threshold fires on a strict downward crossing between
 the previous tick's altitude and the current one, and only while the gear is
 commanded down.
 */
module AltitudeCallouts {
  import opened Types
  import opened Callouts

  /** The signal went from above `t` to at or below it. */
  predicate Crosses(prev: real, cur: real, t: nat) {
    prev > t as real && cur <= t as real
  }

  /** One threshold check: at most the threshold's own identifier. */
  function CheckAltThreshold(t: nat, prev: real, cur: real, enabled: bool, style: AltCalloutStyle): (r: seq<string>)
    ensures |r| <= 1
    ensures r != [] <==> enabled && Crosses(prev, cur, t)
    ensures forall id :: id in r ==> id == AltitudeName(t, style)
  {
    if !enabled then []
    else if Crosses(prev, cur, t) then [AltitudeName(t, style)]
    else []
  }

  /** The checks of a list of thresholds, concatenated in list order. */
  function CheckBands(bands: seq<nat>, prev: real, cur: real, cfg: Config): (r: seq<string>)
    ensures |r| <= |bands|
    ensures forall id :: id in r ==>
              exists t :: t in bands && id == AltitudeName(t, cfg.style2500) && t in cfg.altEnabled && Crosses(prev, cur, t)
    ensures forall t :: t in bands && t in cfg.altEnabled && Crosses(prev, cur, t) ==> AltitudeName(t, cfg.style2500) in r
    ensures NoDuplicates(bands) ==> NoDuplicates(r)
  {
    if bands == [] then []
    else
      var head := CheckAltThreshold(bands[0], prev, cur, bands[0] in cfg.altEnabled, cfg.style2500);
      var rest := CheckBands(bands[1..], prev, cur, cfg);
      HeadNameNotInRest(bands, cfg.style2500, rest);
      head + rest
  }

  /** In a list that repeats no threshold, the rest repeats none either, and
      the first threshold's identifier is not among the rest's identifiers. */
  lemma HeadNameNotInRest(bands: seq<nat>, style: AltCalloutStyle, rest: seq<string>)
    requires |bands| > 0
    requires forall id :: id in rest ==> exists t :: t in bands[1..] && id == AltitudeName(t, style)
    ensures NoDuplicates(bands) ==> NoDuplicates(bands[1..]) && AltitudeName(bands[0], style) !in rest
  {
    if NoDuplicates(bands) {
      forall i, j | 0 <= i < j < |bands| - 1 ensures bands[1..][i] != bands[1..][j] {
        assert bands[i + 1] != bands[j + 1];
      }
      if AltitudeName(bands[0], style) in rest {
        var t :| t in bands[1..] && AltitudeName(bands[0], style) == AltitudeName(t, style);
        AltitudeNameInjective(bands[0], t, style);
      }
    }
  }

  /** Every position moved one place on. */
  function Shift(positions: seq<nat>): (r: seq<nat>)
    ensures |r| == |positions|
    ensures forall k :: 0 <= k < |r| ==> r[k] == positions[k] + 1
  {
    if positions == [] then [] else [positions[0] + 1] + Shift(positions[1..])
  }

  /** The list positions of the thresholds a check fires, in list order. */
  function FiredPositions(bands: seq<nat>, prev: real, cur: real, cfg: Config): (positions: seq<nat>)
    ensures forall k :: 0 <= k < |positions| ==> positions[k] < |bands|
    ensures forall k :: 0 < k < |positions| ==> positions[k - 1] < positions[k]
    decreases |bands|
  {
    if bands == [] then []
    else
      var fired := if bands[0] in cfg.altEnabled && Crosses(prev, cur, bands[0]) then [0] else [];
      fired + Shift(FiredPositions(bands[1..], prev, cur, cfg))
  }

  /** The identifiers of one check are those of the fired positions, one
      each and in the same order, so they come out in the order the
      thresholds are listed. */
  lemma {:induction false} CheckBandsInListOrder(bands: seq<nat>, prev: real, cur: real, cfg: Config)
    ensures var r := CheckBands(bands, prev, cur, cfg);
            var positions := FiredPositions(bands, prev, cur, cfg);
            |positions| == |r|
            && forall k :: 0 <= k < |r| ==> r[k] == AltitudeName(bands[positions[k]], cfg.style2500)
    decreases |bands|
  {
    var r := CheckBands(bands, prev, cur, cfg);
    var positions := FiredPositions(bands, prev, cur, cfg);
    var names := BandNames(bands, cfg.style2500);
    NamesAtPositions(bands, prev, cur, cfg);
    forall k | 0 <= k < |r| ensures r[k] == AltitudeName(bands[positions[k]], cfg.style2500) {
      assert r[k] == names[positions[k]];
    }
  }

  /** CheckBandsInListOrder with the identifiers read off BandNames. */
  lemma {:induction false} NamesAtPositions(bands: seq<nat>, prev: real, cur: real, cfg: Config)
    ensures var r := CheckBands(bands, prev, cur, cfg);
            var positions := FiredPositions(bands, prev, cur, cfg);
            |positions| == |r|
            && forall k :: 0 <= k < |r| ==> r[k] == BandNames(bands, cfg.style2500)[positions[k]]
    decreases |bands|
  {
    if bands != [] {
      var style := cfg.style2500;
      var head := CheckAltThreshold(bands[0], prev, cur, bands[0] in cfg.altEnabled, style);
      var rest := CheckBands(bands[1..], prev, cur, cfg);
      var fired := if bands[0] in cfg.altEnabled && Crosses(prev, cur, bands[0]) then [0] else [];
      var restPositions := FiredPositions(bands[1..], prev, cur, cfg);
      var names := BandNames(bands, style);
      assert CheckBands(bands, prev, cur, cfg) == head + rest;
      assert FiredPositions(bands, prev, cur, cfg) == fired + Shift(restPositions);
      assert names[1..] == BandNames(bands[1..], style);
      NamesAtPositions(bands[1..], prev, cur, cfg);
      PositionsOfConcat(names, head, rest, fired, restPositions);
    }
  }

  /** The identifier of each listed threshold, position by position. */
  function BandNames(bands: seq<nat>, style: AltCalloutStyle): (names: seq<string>)
    ensures |names| == |bands|
    ensures forall k :: 0 <= k < |bands| ==> names[k] == AltitudeName(bands[k], style)
  {
    if bands == [] then [] else [AltitudeName(bands[0], style)] + BandNames(bands[1..], style)
  }

  /** Joining the first threshold's output to the rest's keeps identifiers
      and positions aligned, with the rest's positions moved one place on. */
  lemma PositionsOfConcat(names: seq<string>, head: seq<string>, rest: seq<string>,
                          fired: seq<nat>, restPositions: seq<nat>)
    requires |names| > 0
    requires (head == [] && fired == []) || (head == [names[0]] && fired == [0])
    requires |restPositions| == |rest|
    requires forall k :: 0 <= k < |restPositions| ==> restPositions[k] < |names| - 1
    requires forall k :: 0 <= k < |rest| ==> rest[k] == names[1..][restPositions[k]]
    ensures var r := head + rest;
            var positions := fired + Shift(restPositions);
            |positions| == |r|
            && (forall k :: 0 <= k < |r| ==> positions[k] < |names|)
            && forall k :: 0 <= k < |r| ==> r[k] == names[positions[k]]
  {
    var r := head + rest;
    var positions := fired + Shift(restPositions);
    forall k | 0 <= k < |r| ensures positions[k] < |names| && r[k] == names[positions[k]] {
      if k >= |head| {
        var m := k - |head|;
        assert r[k] == rest[m] && positions[k] == restPositions[m] + 1;
      }
    }
  }

  /** One tick of the altitude detector. With the gear commanded up nothing is
      checked and the remembered altitude is kept; otherwise every threshold is
      checked against the altitude in display units, which is then remembered. */
  function ProcessAltitude(h: History, s: Sample, cfg: Config, imperial: bool): (r: (History, seq<string>))
    ensures !s.gearDeployed ==> r == (h, [])
    ensures s.gearDeployed ==> r.0 == h.(prevRadarAlt := DisplayAltitude(s.radarAlt, imperial))
    ensures forall t :: t in AltitudeBands ==>
              (AltitudeName(t, cfg.style2500) in r.1
               <==> s.gearDeployed && t in cfg.altEnabled
                    && Crosses(h.prevRadarAlt, DisplayAltitude(s.radarAlt, imperial), t))
    ensures forall id :: id in r.1 ==>
              exists t :: t in AltitudeBands && id == AltitudeName(t, cfg.style2500)
                          && Crosses(h.prevRadarAlt, DisplayAltitude(s.radarAlt, imperial), t)
    ensures NoDuplicates(r.1)
  {
    if !s.gearDeployed then (h, [])
    else
      var cur := DisplayAltitude(s.radarAlt, imperial);
      var emitted := CheckBands(AltitudeBands, h.prevRadarAlt, cur, cfg);
      BandNamesIdentify(h.prevRadarAlt, cur, cfg);
      BandsAreDistinct();
      (h.(prevRadarAlt := cur), emitted)
  }

  /** No threshold is listed twice. */
  lemma BandsAreDistinct()
    ensures NoDuplicates(AltitudeBands)
  {
  }

  /** A threshold's identifier is emitted only for that threshold's crossing. */
  lemma BandNamesIdentify(prev: real, cur: real, cfg: Config)
    ensures forall t :: t in AltitudeBands ==>
              (AltitudeName(t, cfg.style2500) in CheckBands(AltitudeBands, prev, cur, cfg)
               <==> t in cfg.altEnabled && Crosses(prev, cur, t))
  {
    var r := CheckBands(AltitudeBands, prev, cur, cfg);
    forall t | t in AltitudeBands && AltitudeName(t, cfg.style2500) in r
      ensures t in cfg.altEnabled && Crosses(prev, cur, t)
    {
      var u :| u in AltitudeBands && AltitudeName(t, cfg.style2500) == AltitudeName(u, cfg.style2500)
               && u in cfg.altEnabled && Crosses(prev, cur, u);
      AltitudeNameInjective(t, u, cfg.style2500);
    }
  }

  /** The altitude detector run over consecutive samples: the identifiers
      emitted on each tick. */
  function AltitudeRun(h: History, samples: seq<Sample>, cfg: Config, imperial: bool): (r: seq<seq<string>>)
    ensures |r| == |samples|
    decreases |samples|
  {
    if samples == [] then []
    else
      var step := ProcessAltitude(h, samples[0], cfg, imperial);
      [step.1] + AltitudeRun(step.0, samples[1..], cfg, imperial)
  }

  /** No re-fire: once the remembered altitude is at or below a threshold, the
      threshold stays silent for as long as the altitude does not climb above
      it again, whatever the gear does meanwhile. */
  lemma {:induction false} NoRefireBelowThreshold(h: History, samples: seq<Sample>, cfg: Config, imperial: bool, t: nat)
    requires t in AltitudeBands
    requires h.prevRadarAlt <= t as real
    requires forall i :: 0 <= i < |samples| ==> DisplayAltitude(samples[i].radarAlt, imperial) <= t as real
    ensures forall i :: 0 <= i < |samples| ==> AltitudeName(t, cfg.style2500) !in AltitudeRun(h, samples, cfg, imperial)[i]
    decreases |samples|
  {
    if samples != [] {
      var step := ProcessAltitude(h, samples[0], cfg, imperial);
      NoRefireBelowThreshold(step.0, samples[1..], cfg, imperial, t);
      var run := AltitudeRun(h, samples, cfg, imperial);
      forall i | 0 <= i < |samples| ensures AltitudeName(t, cfg.style2500) !in run[i] {
        if i > 0 {
          assert run[i] == AltitudeRun(step.0, samples[1..], cfg, imperial)[i - 1];
        }
      }
    }
  }

  /** One crossing, one callout: if the altitude (gear down throughout) stays
      above an enabled threshold up to tick `k` and at or below it from tick
      `k` on, the threshold fires exactly once, on tick `k`. */
  lemma {:induction false} FiresOnceOnCrossing(h: History, samples: seq<Sample>, cfg: Config, imperial: bool, t: nat, k: nat)
    requires t in AltitudeBands && t in cfg.altEnabled
    requires k < |samples|
    requires h.prevRadarAlt > t as real
    requires forall i :: 0 <= i < |samples| ==> samples[i].gearDeployed
    requires forall i :: 0 <= i < k ==> DisplayAltitude(samples[i].radarAlt, imperial) > t as real
    requires forall i :: k <= i < |samples| ==> DisplayAltitude(samples[i].radarAlt, imperial) <= t as real
    ensures forall i :: 0 <= i < |samples| ==>
              (AltitudeName(t, cfg.style2500) in AltitudeRun(h, samples, cfg, imperial)[i] <==> i == k)
    decreases |samples|
  {
    var step := ProcessAltitude(h, samples[0], cfg, imperial);
    var run := AltitudeRun(h, samples, cfg, imperial);
    var rest := AltitudeRun(step.0, samples[1..], cfg, imperial);
    assert forall i :: 0 < i < |samples| ==> run[i] == rest[i - 1];
    if k == 0 {
      NoRefireBelowThreshold(step.0, samples[1..], cfg, imperial, t);
    } else {
      FiresOnceOnCrossing(step.0, samples[1..], cfg, imperial, t, k - 1);
    }
  }

  /** A frame with the gear up stores nothing, so the next frame with the gear
      down is judged against the altitude stored before it: lowering the gear
      late fires, on that frame, every enabled threshold crossed meanwhile. */
  lemma GearUpFrameKeepsReference(h: History, up: Sample, down: Sample, cfg: Config, imperial: bool)
    requires !up.gearDeployed
    ensures AltitudeRun(h, [up, down], cfg, imperial) == [[], ProcessAltitude(h, down, cfg, imperial).1]
  {
    assert [up, down][1..] == [down];
  }

  /** Lowering the gear late catches up: on the first frame with the gear
      down after a frame with it up, a threshold fires iff it is enabled and
      lies between the altitude stored before the gear-up frame and the
      current one, however far the aircraft descended in between. */
  lemma LateGearLoweringCatchesUp(h: History, up: Sample, down: Sample, cfg: Config, imperial: bool, t: nat)
    requires !up.gearDeployed && down.gearDeployed && t in AltitudeBands
    ensures var run := AltitudeRun(h, [up, down], cfg, imperial);
            run[0] == []
            && (AltitudeName(t, cfg.style2500) in run[1]
                <==> t in cfg.altEnabled && Crosses(h.prevRadarAlt, DisplayAltitude(down.radarAlt, imperial), t))
  {
    GearUpFrameKeepsReference(h, up, down, cfg, imperial);
  }
}

=== FILE: announcer.dfy ===
/**
 The plugin itself: the state it keeps between frames, the per-frame update
 that runs the four detectors behind a readiness gate, the re-initialisation
 when the game hands it a new aircraft, and the swap of the sound cache
 around a pack load.
 */
module Announcer {
  import opened Text
  import opened Types
  import opened Callouts
  import opened SoundPack
  import opened AltitudeCallouts
  import opened MachCallouts
  import opened GearCallouts
  import opened ContactCallout

  /** Everything the plugin instance keeps between frames. */
  datatype Plugin = Plugin(
    hasAircraft: bool,             // an aircraft is being tracked
    gearsCached: bool,             // its landing gears have been looked up
    history: History,
    cache: map<string, Clip>,      // identifier -> loaded clip
    soundsLoaded: bool)

  /** The update gate: an aircraft is tracked and the sound pack has finished loading. */
  predicate Ready(p: Plugin) {
    p.hasAircraft && p.soundsLoaded
  }

  /** A frame's outcome: the new state, the identifiers the detectors asked to
      play, and the clips that were actually played. */
  datatype TickResult = TickResult(plugin: Plugin, emitted: seq<string>, played: seq<Clip>)

  /** One frame. Nothing is evaluated unless the plugin is ready; then the
      detectors run in the order altitude, Mach, gear, contact, and each
      requested identifier is played if the sound pack has a clip for it. */
  function Update(p: Plugin, s: Sample, cfg: Config, imperial: bool): (r: TickResult)
    ensures !Ready(p) ==> r.plugin == p && r.emitted == [] && r.played == []
    ensures r.plugin == p.(history := r.plugin.history)
    ensures r.played == Playback(p.cache, r.emitted)
    ensures Ready(p) ==>
              r.emitted == ProcessAltitude(p.history, s, cfg, imperial).1 + ProcessMach(p.history, s.mach, cfg).1
                           + ProcessGear(p.history, s, cfg).1 + ProcessContact(p.history, s, cfg, p.gearsCached).1
    ensures Ready(p) ==>
              && r.plugin.history.prevMach == s.mach
              && r.plugin.history.prevGearDeployed == s.gearDeployed
              && r.plugin.history.prevGearState == s.gearState
              && r.plugin.history.prevRadarAlt
                 == (if s.gearDeployed then DisplayAltitude(s.radarAlt, imperial) else p.history.prevRadarAlt)
    ensures Ready(p) ==>
              && r.plugin.history.wasGrounded == ProcessContact(p.history, s, cfg, p.gearsCached).0.wasGrounded
              && r.plugin.history.contactArmed == ProcessContact(p.history, s, cfg, p.gearsCached).0.contactArmed
    ensures forall t :: t in AltitudeBands ==>
              (AltitudeName(t, cfg.style2500) in r.emitted
               <==> Ready(p) && s.gearDeployed && t in cfg.altEnabled
                    && Crosses(p.history.prevRadarAlt, DisplayAltitude(s.radarAlt, imperial), t))
    ensures ValidConfig(cfg) ==> forall id :: id in r.emitted ==> id in CalloutIds
  {
    if !Ready(p) then TickResult(p, [], [])
    else
      var altitude := ProcessAltitude(p.history, s, cfg, imperial);
      var mach := ProcessMach(altitude.0, s.mach, cfg);
      var gear := ProcessGear(mach.0, s, cfg);
      var contact := ProcessContact(gear.0, s, cfg, p.gearsCached);
      var emitted := altitude.1 + mach.1 + gear.1 + contact.1;
      AltitudeNamesStandApart(cfg.style2500, mach.1 + gear.1 + contact.1);
      EmittedAreKnown(cfg, s.mach, altitude.1, mach.1, gear.1, contact.1);
      TickResult(p.(history := contact.0), emitted, Playback(p.cache, emitted))
  }

  /** Altitude identifiers begin with a digit; no other callout does, so the
      other detectors never emit an altitude identifier. */
  lemma AltitudeNamesStandApart(style: AltCalloutStyle, others: seq<string>)
    requires forall id :: id in others ==>
               id in [Subsonic, GearDown, GearUp, GearDownAndLocked, GearUpAndLocked, Contact]
               || exists n :: id == MachName(n)
    ensures forall t :: t in AltitudeBands ==> AltitudeName(t, style) !in others
  {
    forall t | t in AltitudeBands ensures AltitudeName(t, style) !in others {
      var name := AltitudeName(t, style);
      assert IsDigit(name[0]);
      forall id | id in others ensures id != name {
        assert !IsDigit(id[0]);
      }
    }
  }

  lemma EmittedAreKnown(cfg: Config, mach: real, altitude: seq<string>, machIds: seq<string>, gear: seq<string>, contact: seq<string>)
    requires forall id :: id in altitude ==> exists t :: t in AltitudeBands && id == AltitudeName(t, cfg.style2500)
    requires forall id :: id in machIds ==> id == Subsonic || (id == MachName(mach.Floor) && mach.Floor in cfg.machEnabled)
    requires forall id :: id in gear ==> id in [GearDown, GearUp, GearDownAndLocked, GearUpAndLocked]
    requires forall id :: id in contact ==> id == Contact
    ensures ValidConfig(cfg) ==> forall id :: id in altitude + machIds + gear + contact ==> id in CalloutIds
  {
    forall id | ValidConfig(cfg) && id in altitude + machIds + gear + contact ensures id in CalloutIds {
      if id in altitude {
        var t :| t in AltitudeBands && id == AltitudeName(t, cfg.style2500);
        AltitudeNameKnown(t, cfg.style2500);
      } else if id in machIds && id != Subsonic {
        MachNameKnown(mach.Floor);
      } else {
        assert NamedIds <= CalloutIds;
        assert id in NamedIds;
      }
    }
  }

  /** The game hands the plugin a new aircraft: its landing gears are looked
      up, the previous gear flag, gear state and radar altitude are taken from
      it, and the contact detector restarts on the ground and disarmed. The
      altitude is stored as the aircraft reports it, without the imperial
      conversion a frame applies, and the previous Mach number is kept. */
  function HookCurrentAircraft(p: Plugin, aircraft: Sample): (r: Plugin)
    ensures r.hasAircraft && r.gearsCached
    ensures r.history.wasGrounded && !r.history.contactArmed
    ensures r.history.prevGearDeployed == aircraft.gearDeployed
    ensures r.history.prevGearState == aircraft.gearState
    ensures r.history.prevRadarAlt == aircraft.radarAlt
    ensures r.history.prevMach == p.history.prevMach
    ensures r.cache == p.cache && r.soundsLoaded == p.soundsLoaded
  {
    p.(hasAircraft := true, gearsCached := true,
       history := History(aircraft.radarAlt, p.history.prevMach, aircraft.gearDeployed, aircraft.gearState, true, false))
  }

  /** A first frame that reads the same values the hook saw calls out no
      altitude, gear or contact: only a Mach callout can fire, because the
      previous Mach number survives the swap. */
  lemma FirstFrameAfterHookIsQuiet(p: Plugin, aircraft: Sample, cfg: Config, imperial: bool)
    requires p.soundsLoaded
    ensures forall id :: id in Update(HookCurrentAircraft(p, aircraft), aircraft, cfg, imperial).emitted ==>
              id == Subsonic || id == MachName(aircraft.mach.Floor)
  {
    var q := HookCurrentAircraft(p, aircraft);
    HookedDetectorsAreQuiet(q, aircraft, cfg, imperial);
    OnlyMachRemains(Update(q, aircraft, cfg, imperial).emitted,
                    ProcessAltitude(q.history, aircraft, cfg, imperial).1, ProcessMach(q.history, aircraft.mach, cfg).1,
                    ProcessGear(q.history, aircraft, cfg).1, ProcessContact(q.history, aircraft, cfg, q.gearsCached).1,
                    aircraft.mach.Floor);
  }

  /** A frame whose altitude, gear and contact parts are silent emits only
      what the Mach detector emits. */
  lemma OnlyMachRemains(emitted: seq<string>, altitude: seq<string>, mach: seq<string>,
                        gear: seq<string>, contact: seq<string>, band: int)
    requires emitted == altitude + mach + gear + contact
    requires (forall id :: id !in altitude) && gear == [] && contact == []
    requires forall id :: id in mach ==> id == Subsonic || id == MachName(band)
    ensures forall id :: id in emitted ==> id == Subsonic || id == MachName(band)
  {
  }

  /** After the hook, the altitude, gear and contact detectors have nothing
      to say about the values the hook saw. */
  lemma HookedDetectorsAreQuiet(q: Plugin, aircraft: Sample, cfg: Config, imperial: bool)
    requires q.history.prevRadarAlt == aircraft.radarAlt
    requires q.history.prevGearDeployed == aircraft.gearDeployed && q.history.prevGearState == aircraft.gearState
    requires q.history.wasGrounded
    ensures forall id :: id !in ProcessAltitude(q.history, aircraft, cfg, imperial).1
    ensures ProcessGear(q.history, aircraft, cfg).1 == []
    ensures ProcessContact(q.history, aircraft, cfg, q.gearsCached).1 == []
  {
    UnchangedAltitudeIsQuiet(q.history, aircraft, cfg, imperial);
  }

  /** Reading the remembered raw altitude again crosses no threshold: the
      display altitude is never below a non-negative raw one. */
  lemma UnchangedAltitudeIsQuiet(h: History, s: Sample, cfg: Config, imperial: bool)
    requires h.prevRadarAlt == s.radarAlt
    ensures forall id :: id !in ProcessAltitude(h, s, cfg, imperial).1
  {
    forall t | t in AltitudeBands ensures !Crosses(h.prevRadarAlt, DisplayAltitude(s.radarAlt, imperial), t) {
      if s.radarAlt > t as real {
        assert DisplayAltitude(s.radarAlt, imperial) >= s.radarAlt;
      }
    }
  }

  /** The previous Mach number is not reset on a swap: a new aircraft already
      flying at Mach 1.2, hooked after one that last flew at Mach 0.8, is
      greeted with "Mach 1" on its first frame. */
  lemma MachSurvivesSwap(p: Plugin, aircraft: Sample, cfg: Config, imperial: bool)
    requires p.soundsLoaded && p.history.prevMach == 0.8 && aircraft.mach == 1.2
    requires 1 in cfg.machEnabled
    ensures MachName(1) in Update(HookCurrentAircraft(p, aircraft), aircraft, cfg, imperial).emitted
  {
    assert (1.2).Floor == 1;
  }

  /** The hook stores the altitude unconverted. In imperial units, an
      aircraft hooked at 800 m (about 2625 ft) that is at 760 m (about
      2493 ft) on its first frame does not hear "2500", although it descended
      through 2500 ft: the frame compares 2493 ft against a stored 800. */
  lemma UnconvertedSeedMissesCrossing(p: Plugin, aircraft: Sample, cfg: Config)
    requires p.soundsLoaded && aircraft.gearDeployed && aircraft.radarAlt == 800.0
    requires 2500 in cfg.altEnabled
    ensures Crosses(DisplayAltitude(800.0, true), DisplayAltitude(760.0, true), 2500)
    ensures AltitudeName(2500, cfg.style2500)
            !in Update(HookCurrentAircraft(p, aircraft), aircraft.(radarAlt := 760.0), cfg, true).emitted
  {
  }

  /** The state before the first load and the first aircraft: the runtime's
      zero values, with the gear state enumeration's zero member given. */
  function Initial(defaultGearState: GearState): (r: Plugin)
    ensures !Ready(r) && r.cache == map[]
    ensures !r.hasAircraft && !r.gearsCached && !r.soundsLoaded
    ensures r.history.prevMach == 0.0 && r.history.prevRadarAlt == 0.0
    ensures !r.history.prevGearDeployed && r.history.prevGearState == defaultGearState
    ensures !r.history.wasGrounded && !r.history.contactArmed
  {
    Plugin(false, false, History(0.0, 0.0, false, defaultGearState, false, false), map[], false)
  }

  /** A pack load begins: the cache is emptied and the plugin is not ready
      until the load completes, so no frame evaluates anything meanwhile. */
  function BeginLoad(p: Plugin): (r: Plugin)
    ensures !Ready(r) && !r.soundsLoaded && r.cache == map[]
    ensures r.history == p.history && r.hasAircraft == p.hasAircraft && r.gearsCached == p.gearsCached
  {
    p.(cache := map[], soundsLoaded := false)
  }

  /** A pack load ends with the cache and readiness flag the loader produced. */
  function FinishLoad(p: Plugin, cache: map<string, Clip>, loaded: bool): (r: Plugin)
    ensures Ready(r) <==> p.hasAircraft && loaded
    ensures r.soundsLoaded == loaded && r.cache == cache
    ensures r.history == p.history && r.hasAircraft == p.hasAircraft && r.gearsCached == p.gearsCached
  {
    p.(cache := cache, soundsLoaded := loaded)
  }

  /** An aircraft hooked while a load is under way changes nothing about the
      gate: until the load finishes, frames evaluate nothing and play nothing. */
  lemma HookDuringLoadIsQuiet(p: Plugin, aircraft: Sample, s: Sample, cfg: Config, imperial: bool)
    ensures var q := HookCurrentAircraft(BeginLoad(p), aircraft);
            Update(q, s, cfg, imperial) == TickResult(q, [], [])
  {
  }

  /** Once that load completes successfully, the hooked aircraft is served. */
  lemma LoadAfterHookIsReady(p: Plugin, aircraft: Sample, cache: map<string, Clip>)
    ensures Ready(FinishLoad(HookCurrentAircraft(BeginLoad(p), aircraft), cache, true))
  {
  }

  /** Reloading the sound pack: begin, run the loader, install its result. A pack
      directory that does not exist leaves the plugin permanently not ready. */
  method ReloadSoundPack(p: Plugin, packExists: bool, fileExists: string -> bool, decodes: string -> bool)
    returns (r: Plugin)
    ensures r.history == p.history && r.hasAircraft == p.hasAircraft && r.gearsCached == p.gearsCached
    ensures r.soundsLoaded == packExists
    ensures !packExists ==> !Ready(r) && r.cache == map[]
    ensures forall id :: id in r.cache ==> id in CalloutIds && r.cache[id].name == id
    ensures packExists ==> forall id :: id in CalloutIds ==>
              (id in r.cache <==> ResolveClip(id, fileExists, decodes).Some?)
              && (id in r.cache ==> Some(r.cache[id]) == ResolveClip(id, fileExists, decodes))
  {
    var loading := BeginLoad(p);
    var cache, loaded := LoadSoundPack(packExists, fileExists, decodes);
    r := FinishLoad(loading, cache, loaded);
  }
}

=== FILE: callouts.dfy ===
/**
 Callout identifiers. An identifier is both what a detector emits and the
 base name of the sound file the loader looks for, so the detectors and
 the loader must agree on its spelling.
 */
module Callouts {
  import opened Text
  import opened Types

  const Subsonic: string := "subsonic"
  const GearDown: string := "Gear Down"
  const GearUp: string := "Gear Up"
  const GearDownAndLocked: string := "Gear Down and Locked"
  const GearUpAndLocked: string := "Gear Up and Locked"
  const Contact: string := "contact"
  const British2500: string := "2500_UK"

  /** The altitude thresholds in display units (metres, or feet when the unit
      setting is imperial), in the order a tick checks them. */
  const AltitudeBands: seq<nat> := [2500, 1000, 500, 400, 300, 200, 100, 75, 50, 40, 30, 20, 10]

  /** The identifier of threshold `t`: its decimal spelling, except that the
      British style voices 2500 with its own recording. */
  function AltitudeName(t: nat, style: AltCalloutStyle): (id: string)
    ensures t != 2500 || style == American ==> id == NatToString(t)
    ensures t == 2500 && style == British ==> id == British2500
  {
    if t == 2500 && style == British then British2500 else NatToString(t)
  }

  /** "Mach N", N spelled as .NET interpolates an int. */
  function MachName(n: int): string {
    "Mach " + IntToString(n)
  }

  /** The shape of a Mach identifier: the prefix "Mach ", then a '-' for a
      negative N, or else digits that read back as N. */
  lemma MachNameSpelling(n: int)
    ensures |MachName(n)| > 5 && MachName(n)[..5] == "Mach "
    ensures n < 0 ==> MachName(n)[5] == '-'
    ensures 0 <= n ==> (forall k :: 5 <= k < |MachName(n)| ==> IsDigit(MachName(n)[k]))
                       && ParseNat(MachName(n)[5..]) == n
  {
    assert MachName(n)[5..] == IntToString(n);
    if 0 <= n {
      ParseNatToString(n);
    }
  }

  /** The fixed list of identifiers the loader tries, in its order. */
  const NamedIds: seq<string> := [
    "10", "20", "30", "40", "50", "75", "100", "200", "300", "400", "500", "1000", "2500", British2500, Subsonic,
    GearDown, GearUp, GearDownAndLocked, GearUpAndLocked, Contact]

  /** "Mach 1" up to "Mach n", in increasing order. */
  function MachIdList(n: nat): (r: seq<string>)
    ensures |r| == n
    ensures forall k :: 0 <= k < n ==> r[k] == MachName(k + 1)
  {
    if n == 0 then [] else MachIdList(n - 1) + [MachName(n)]
  }

  const MachIds: seq<string> := MachIdList(10)

  const CalloutIds: seq<string> := NamedIds + MachIds

  /** Every threshold's identifier, in either style, is one the loader tries. */
  lemma AltitudeNameKnown(t: nat, style: AltCalloutStyle)
    requires t in AltitudeBands
    ensures AltitudeName(t, style) in CalloutIds
  {
    AltitudeNameNamed(t, style);
    NamedAreKnown(AltitudeName(t, style));
  }

  lemma NamedAreKnown(id: string)
    requires id in NamedIds
    ensures id in CalloutIds
  {
    assert NamedIds <= CalloutIds;
  }

  lemma AltitudeNameNamed(t: nat, style: AltCalloutStyle)
    requires t in AltitudeBands
    ensures AltitudeName(t, style) in NamedIds
  {
    LowBandsSpelled();
    HighBandsSpelled();
    if t == 2500 && style == British {
      assert NamedIds[13] == British2500;
    } else if t == 10 {
      assert NamedIds[0] == "10";
    } else if t == 20 {
      assert NamedIds[1] == "20";
    } else if t == 30 {
      assert NamedIds[2] == "30";
    } else if t == 40 {
      assert NamedIds[3] == "40";
    } else if t == 50 {
      assert NamedIds[4] == "50";
    } else if t == 75 {
      assert NamedIds[5] == "75";
    } else if t == 100 {
      assert NamedIds[6] == "100";
    } else if t == 200 {
      assert NamedIds[7] == "200";
    } else if t == 300 {
      assert NamedIds[8] == "300";
    } else if t == 400 {
      assert NamedIds[9] == "400";
    } else if t == 500 {
      assert NamedIds[10] == "500";
    } else if t == 1000 {
      assert NamedIds[11] == "1000";
    } else if t == 2500 {
      assert NamedIds[12] == "2500";
    }
  }

  /** The decimal spellings of the thresholds below 100. */
  lemma LowBandsSpelled()
    ensures NatToString(10) == "10"
    ensures NatToString(20) == "20"
    ensures NatToString(30) == "30"
    ensures NatToString(40) == "40"
    ensures NatToString(50) == "50"
    ensures NatToString(75) == "75"
  {
  }

  /** The decimal spellings of the thresholds from 100 up. */
  lemma HighBandsSpelled()
    ensures NatToString(100) == "100"
    ensures NatToString(200) == "200"
    ensures NatToString(300) == "300"
    ensures NatToString(400) == "400"
    ensures NatToString(500) == "500"
    ensures NatToString(1000) == "1000"
    ensures NatToString(2500) == "2500"
  {
  }

  /** Every configurable Mach number's identifier is one the loader tries. */
  lemma MachNameKnown(n: int)
    requires IsMachKey(n)
    ensures MachName(n) in CalloutIds
  {
    assert MachIds[n - 1] == CalloutIds[|NamedIds| + n - 1];
  }

  /** Distinct thresholds have distinct identifiers, whatever the style. */
  lemma AltitudeNameInjective(t: nat, u: nat, style: AltCalloutStyle)
    ensures AltitudeName(t, style) == AltitudeName(u, style) ==> t == u
  {
    NatToStringInjective(t, u);
    if style == British && (t == 2500) != (u == 2500) {
      var d := if t == 2500 then u else t;
      assert NatToString(d) != British2500 by {
        assert !IsDigit(British2500[4]);
      }
    }
  }

  lemma MachNameInjective(m: int, n: int)
    ensures MachName(m) == MachName(n) ==> m == n
  {
    if MachName(m) == MachName(n) {
      assert IntToString(m) == MachName(m)[5..];
      assert IntToString(n) == MachName(n)[5..];
      IntToStringInjective(m, n);
    }
  }
}

=== FILE: contact.dfy ===
/**
 The touchdown callout: armed once the aircraft is airborne above a small
 dead-band, fired on the first tick a wheel touches the ground, and disarmed
 by firing, so it sounds once per takeoff-and-landing cycle.
 */
module ContactCallout {
  import opened Types
  import opened Callouts

  /** Airborne dead-band, in the aircraft's raw radar-altitude units. */
  const ArmingAltitude: real := 2.0

  /** Some cached landing gear has weight on its wheel. */
  predicate IsGrounded(wheelsOnGround: seq<bool>) {
    exists i :: 0 <= i < |wheelsOnGround| && wheelsOnGround[i]
  }

  /** The tick's reading arms the callout: airborne and above the dead-band. */
  predicate Arms(s: Sample) {
    !IsGrounded(s.wheelsOnGround) && s.radarAlt > ArmingAltitude
  }

  /** One tick of the contact detector. With the callout disabled, or no
      landing gear cached, nothing at all happens. */
  function ProcessContact(h: History, s: Sample, cfg: Config, gearsCached: bool): (r: (History, seq<string>))
    ensures !cfg.contactEnabled || !gearsCached ==> r == (h, [])
    ensures Contact in r.1 <==>
              cfg.contactEnabled && gearsCached && h.contactArmed && IsGrounded(s.wheelsOnGround) && !h.wasGrounded
    ensures r.1 == [] || r.1 == [Contact]
    ensures cfg.contactEnabled && gearsCached ==>
              && r.0.wasGrounded == IsGrounded(s.wheelsOnGround)
              && (r.0.contactArmed <==> (h.contactArmed && Contact !in r.1) || Arms(s))
    ensures r.0 == h.(wasGrounded := r.0.wasGrounded, contactArmed := r.0.contactArmed)
  {
    if !cfg.contactEnabled || !gearsCached then (h, [])
    else
      var grounded := IsGrounded(s.wheelsOnGround);
      var armed := if !h.contactArmed && !grounded && s.radarAlt > ArmingAltitude then true else h.contactArmed;
      var fires := armed && grounded && !h.wasGrounded;
      var emitted := if fires then [Contact] else [];
      var armed' := if fires then false else armed;
      (h.(wasGrounded := grounded, contactArmed := armed'), emitted)
  }

  /** The contact detector run over consecutive samples. */
  function ContactRun(h: History, samples: seq<Sample>, cfg: Config, gearsCached: bool): (r: seq<seq<string>>)
    ensures |r| == |samples|
    decreases |samples|
  {
    if samples == [] then []
    else
      var step := ProcessContact(h, samples[0], cfg, gearsCached);
      [step.1] + ContactRun(step.0, samples[1..], cfg, gearsCached)
  }

  /** The history after the first `n` samples of a run. */
  function ContactStateAfter(h: History, samples: seq<Sample>, cfg: Config, gearsCached: bool, n: nat): History
    requires n <= |samples|
    decreases n
  {
    if n == 0 then h
    else ProcessContact(ContactStateAfter(h, samples, cfg, gearsCached, n - 1), samples[n - 1], cfg, gearsCached).0
  }

  /** Tick `i` of a run is the detector applied to the history so far. */
  lemma {:induction false} ContactRunStep(h: History, samples: seq<Sample>, cfg: Config, gearsCached: bool, i: nat)
    requires i < |samples|
    ensures ContactRun(h, samples, cfg, gearsCached)[i]
            == ProcessContact(ContactStateAfter(h, samples, cfg, gearsCached, i), samples[i], cfg, gearsCached).1
    decreases i
  {
    if i > 0 {
      var step := ProcessContact(h, samples[0], cfg, gearsCached);
      ContactRunStep(step.0, samples[1..], cfg, gearsCached, i - 1);
      StateAfterShift(h, samples, cfg, gearsCached, i);
    }
  }

  lemma {:induction false} StateAfterShift(h: History, samples: seq<Sample>, cfg: Config, gearsCached: bool, n: nat)
    requires 0 < n <= |samples|
    ensures ContactStateAfter(h, samples, cfg, gearsCached, n)
            == ContactStateAfter(ProcessContact(h, samples[0], cfg, gearsCached).0, samples[1..], cfg, gearsCached, n - 1)
    decreases n
  {
    if n > 1 {
      StateAfterShift(h, samples, cfg, gearsCached, n - 1);
    }
  }

  /** A disarmed detector stays disarmed over ticks none of which arms it. */
  lemma {:induction false} StaysDisarmed(h: History, samples: seq<Sample>, cfg: Config, gearsCached: bool, lo: nat, hi: nat)
    requires lo <= hi <= |samples|
    requires !ContactStateAfter(h, samples, cfg, gearsCached, lo).contactArmed
    requires forall k :: lo <= k < hi ==> !Arms(samples[k])
    ensures !ContactStateAfter(h, samples, cfg, gearsCached, hi).contactArmed
    decreases hi - lo
  {
    if lo < hi {
      StaysDisarmed(h, samples, cfg, gearsCached, lo, hi - 1);
    }
  }

  /** Once per cycle: between any two "contact" callouts of a run lies a tick
      that armed the detector again. */
  lemma ContactOncePerCycle(h: History, samples: seq<Sample>, cfg: Config, gearsCached: bool, i: nat, j: nat)
    requires i < j < |samples|
    requires Contact in ContactRun(h, samples, cfg, gearsCached)[i]
    requires Contact in ContactRun(h, samples, cfg, gearsCached)[j]
    ensures exists k :: i < k < j && Arms(samples[k])
  {
    ContactRunStep(h, samples, cfg, gearsCached, i);
    ContactRunStep(h, samples, cfg, gearsCached, j);
    if forall k :: i < k < j ==> !Arms(samples[k]) {
      assert ContactStateAfter(h, samples, cfg, gearsCached, i + 1)
             == ProcessContact(ContactStateAfter(h, samples, cfg, gearsCached, i), samples[i], cfg, gearsCached).0;
      StaysDisarmed(h, samples, cfg, gearsCached, i + 1, j);
      assert false;
    }
  }

  /** Starting on the ground and disarmed, one tick airborne above the
      dead-band and then one tick with a wheel on the ground call out
      "contact" exactly once, on touchdown. */
  lemma TakeoffAndLanding(h: History, cfg: Config, airborne: Sample, landed: Sample)
    requires cfg.contactEnabled
    requires h.wasGrounded && !h.contactArmed
    requires Arms(airborne)
    requires IsGrounded(landed.wheelsOnGround)
    ensures ContactRun(h, [airborne, landed], cfg, true) == [[], [Contact]]
  {
    assert [airborne, landed][1..] == [landed];
  }
}

=== FILE: gear.dfy ===
/**
 Gear callouts: one edge detector on the commanded gear lever and one on the
 physical gear state reported by the aircraft.
 */
module GearCallouts {
  import opened Text
  import opened Types
  import opened Callouts

  /** The lever detector: on a change, "Gear Down" or "Gear Up" according to
      the new position, if that callout is enabled. */
  function CommandedGear(prevDeployed: bool, deployed: bool, cfg: Config): (r: seq<string>)
    ensures prevDeployed == deployed ==> r == []
    ensures GearDown in r <==> !prevDeployed && deployed && cfg.gearDownEnabled
    ensures GearUp in r <==> prevDeployed && !deployed && cfg.gearUpEnabled
    ensures |r| <= 1
    ensures forall id :: id in r ==> id == GearDown || id == GearUp
  {
    if deployed == prevDeployed then []
    else if deployed && cfg.gearDownEnabled then [GearDown]
    else if !deployed && cfg.gearUpEnabled then [GearUp]
    else []
  }

  /** A state name that reads as retracted-and-locked: it mentions retraction,
      stowing, or both "Up" and "Lock", and has no "-ing" form, which marks a
      movement in progress. */
  predicate IsUpAndLockedName(name: string) {
    var transient := Contains(name, "ing") || Contains(name, "Ing");
    var retracted := Contains(name, "Retract") || Contains(name, "Stow")
                     || (Contains(name, "Up") && Contains(name, "Lock"));
    retracted && !transient
  }

  /** The physical-state detector: on a change, "Gear Down and Locked" for the
      extended-and-locked state when that callout is enabled; otherwise "Gear
      Up and Locked" for a state whose name reads as retracted-and-locked. */
  function PhysicalGear(prevState: GearState, state: GearState, cfg: Config): (r: seq<string>)
    ensures |r| <= 1
    ensures state == prevState ==> r == []
    ensures GearDownAndLocked in r <==> state != prevState && state == LockedExtended && cfg.gearDownLockedEnabled
    ensures GearUpAndLocked in r <==> state != prevState && IsUpAndLockedName(state.name) && cfg.gearUpLockedEnabled
    ensures forall id :: id in r ==> id == GearDownAndLocked || id == GearUpAndLocked
  {
    LockedExtendedIsNotUp();
    if state == prevState then []
    else if state == LockedExtended && cfg.gearDownLockedEnabled then [GearDownAndLocked]
    else if IsUpAndLockedName(state.name) && cfg.gearUpLockedEnabled then [GearUpAndLocked]
    else []
  }

  /** The extended-and-locked state never reads as up-and-locked, so the two
      locked callouts exclude each other. */
  lemma LockedExtendedIsNotUp()
    ensures !IsUpAndLockedName(LockedExtended.name)
  {
    LackingKeywordsIsNotUp(LockedExtended.name);
  }

  /** A name without 'R', 'S' or 'U' cannot mention retraction, stowing or
      "Up", so it never reads as up-and-locked. */
  lemma LackingKeywordsIsNotUp(name: string)
    requires 'R' !in name && 'S' !in name && 'U' !in name
    ensures !IsUpAndLockedName(name)
  {
    MissingCharExcludes(name, "Retract", 'R');
    MissingCharExcludes(name, "Stow", 'S');
    MissingCharExcludes(name, "Up", 'U');
  }

  /** A name with an "-ing" form is a movement in progress, whatever else it
      says. */
  lemma TransientIsNotUp(name: string, i: int)
    requires OccursAt(name, "ing", i)
    ensures !IsUpAndLockedName(name)
  {
    ContainsAt(name, "ing", i);
  }

  /** A name that mentions retraction and has no 'g' (so no "-ing" form)
      reads as up-and-locked. */
  lemma RetractedIsUp(name: string, i: int)
    requires OccursAt(name, "Retract", i) && 'g' !in name
    ensures IsUpAndLockedName(name)
  {
    ContainsAt(name, "Retract", i);
    MissingCharExcludes(name, "ing", 'g');
    MissingCharExcludes(name, "Ing", 'g');
  }

  /** One tick of the gear detectors: lever first, then physical state; both
      previous values are always replaced. */
  function ProcessGear(h: History, s: Sample, cfg: Config): (r: (History, seq<string>))
    ensures r.0 == h.(prevGearDeployed := s.gearDeployed, prevGearState := s.gearState)
    ensures s.gearDeployed == h.prevGearDeployed && s.gearState == h.prevGearState ==> r.1 == []
    ensures GearDown in r.1 <==> !h.prevGearDeployed && s.gearDeployed && cfg.gearDownEnabled
    ensures GearUp in r.1 <==> h.prevGearDeployed && !s.gearDeployed && cfg.gearUpEnabled
    ensures GearDownAndLocked in r.1 <==> s.gearState != h.prevGearState && s.gearState == LockedExtended && cfg.gearDownLockedEnabled
    ensures GearUpAndLocked in r.1 <==> s.gearState != h.prevGearState && IsUpAndLockedName(s.gearState.name) && cfg.gearUpLockedEnabled
    ensures |r.1| <= 2 && NoDuplicates(r.1)
    ensures forall id :: id in r.1 ==> id in [GearDown, GearUp, GearDownAndLocked, GearUpAndLocked]
  {
    var lever := CommandedGear(h.prevGearDeployed, s.gearDeployed, cfg);
    var physical := PhysicalGear(h.prevGearState, s.gearState, cfg);
    assert GearDown !in physical && GearUp !in physical;
    assert GearDownAndLocked !in lever && GearUpAndLocked !in lever;
    (h.(prevGearDeployed := s.gearDeployed, prevGearState := s.gearState), lever + physical)
  }

  /** Movements in progress are silent: "Retracting" and "Extending" emit no
      locked callout. */
  lemma TransientStatesAreSilent(cfg: Config, prev: GearState)
    ensures GearState("Retracting") != prev ==> PhysicalGear(prev, GearState("Retracting"), cfg) == []
    ensures GearState("Extending") != prev ==> PhysicalGear(prev, GearState("Extending"), cfg) == []
  {
    assert "Retracting"[7..10] == "ing";
    TransientIsNotUp("Retracting", 7);
    assert "Extending"[6..9] == "ing";
    TransientIsNotUp("Extending", 6);
  }

  /** Lowering the gear through "Extending" to the extended-and-locked state
      calls out "Gear Down and Locked" once, on the second transition. */
  lemma LoweringScenario(cfg: Config)
    requires cfg.gearDownLockedEnabled
    ensures PhysicalGear(GearState("LockedRetracted"), GearState("Extending"), cfg) == []
    ensures PhysicalGear(GearState("Extending"), LockedExtended, cfg) == [GearDownAndLocked]
  {
    TransientStatesAreSilent(cfg, GearState("LockedRetracted"));
  }

  /** A retracted-and-locked name such as "LockedRetracted" fires "Gear Up
      and Locked" when it is entered. */
  lemma RetractedNameFires(cfg: Config)
    requires cfg.gearUpLockedEnabled
    ensures PhysicalGear(GearState("Retracting"), GearState("LockedRetracted"), cfg) == [GearUpAndLocked]
  {
    assert "LockedRetracted"[6..13] == "Retract";
    RetractedIsUp("LockedRetracted", 6);
  }
}

=== FILE: mach.dfy ===
/**
 Mach callouts: "Mach N" when the whole-number part of the Mach number goes
 up, and "subsonic" when the Mach number drops below 1.
 */
module MachCallouts {

  import opened Types
  import opened Callouts

  /** One tick of the Mach detector. The remembered Mach number is always
      replaced, whether or not anything fired. */
  function ProcessMach(h: History, mach: real, cfg: Config): (r: (History, seq<string>))
    ensures r.0 == h.(prevMach := mach)
    ensures Subsonic in r.1 <==> cfg.subsonicEnabled && h.prevMach >= 1.0 && mach < 1.0
    ensures forall n :: MachName(n) in r.1 <==> n == mach.Floor && mach.Floor > h.prevMach.Floor && n in cfg.machEnabled
    ensures |r.1| <= 1
    ensures forall id :: id in r.1 ==> id == Subsonic || id == MachName(mach.Floor)
  {
    var subsonic := if cfg.subsonicEnabled && h.prevMach >= 1.0 && mach < 1.0 then [Subsonic] else [];
    var band := if mach.Floor > h.prevMach.Floor && mach.Floor in cfg.machEnabled then [MachName(mach.Floor)] else [];
    MachNamesDiffer(mach.Floor);
    (h.(prevMach := mach), subsonic + band)
  }

  /** The two kinds of Mach identifier never coincide, and "Mach N" names N. */
  lemma MachNamesDiffer(m: int)
    ensures forall n :: MachName(n) != Subsonic
    ensures forall n :: MachName(n) == MachName(m) <==> n == m
  {
    forall n ensures MachName(n) != Subsonic {
      assert MachName(n)[0] != Subsonic[0];
    }
    forall n ensures MachName(n) == MachName(m) <==> n == m {
      MachNameInjective(n, m);
    }
  }

  /** The Mach detector run over consecutive Mach numbers. */
  function MachRun(h: History, machs: seq<real>, cfg: Config): (r: seq<seq<string>>)
    ensures |r| == |machs|
    decreases |machs|
  {
    if machs == [] then []
    else
      var step := ProcessMach(h, machs[0], cfg);
      [step.1] + MachRun(step.0, machs[1..], cfg)
  }

  /** The Mach number a run's tick `i` compares against: the one of the tick
      before, or the remembered one for the first tick. */
  function PrevMachAt(h: History, machs: seq<real>, i: nat): real
    requires i < |machs|
  {
    if i == 0 then h.prevMach else machs[i - 1]
  }

  lemma {:induction false} MachRunStep(h: History, machs: seq<real>, cfg: Config, i: nat)
    requires i < |machs|
    ensures MachRun(h, machs, cfg)[i] == ProcessMach(h.(prevMach := PrevMachAt(h, machs, i)), machs[i], cfg).1
    decreases i
  {
    if i > 0 {
      var step := ProcessMach(h, machs[0], cfg);
      MachRunStep(step.0, machs[1..], cfg, i - 1);
      assert step.0.(prevMach := PrevMachAt(step.0, machs[1..], i - 1))
          == h.(prevMach := PrevMachAt(h, machs, i));
    }
  }

  /** While the aircraft keeps accelerating, each "Mach N" fires at most once. */
  lemma MachBandOncePerAcceleration(h: History, machs: seq<real>, cfg: Config, n: int, i: nat, j: nat)
    requires forall k :: 0 < k < |machs| ==> machs[k - 1] <= machs[k]
    requires i < j < |machs|
    ensures !(MachName(n) in MachRun(h, machs, cfg)[i] && MachName(n) in MachRun(h, machs, cfg)[j])
  {
    var run := MachRun(h, machs, cfg);
    if MachName(n) in run[i] && MachName(n) in run[j] {
      RunFiresOnlyOnRise(h, machs, cfg, n, i);
      RunFiresOnlyOnRise(h, machs, cfg, n, j);
      LaterTicksStartHigher(h, machs, i, j);
    }
  }

  /** On a non-decreasing run, a later tick compares against a band at least
      as high as any earlier tick reached. */
  lemma LaterTicksStartHigher(h: History, machs: seq<real>, i: nat, j: nat)
    requires forall k :: 0 < k < |machs| ==> machs[k - 1] <= machs[k]
    requires i < j < |machs|
    ensures machs[i].Floor <= PrevMachAt(h, machs, j).Floor
  {
    MonotoneFloor(machs, i, j - 1);
  }

  /** A run's tick calls out "Mach N" only when it reaches band N from a
      lower band than the tick before. */
  lemma RunFiresOnlyOnRise(h: History, machs: seq<real>, cfg: Config, n: int, i: nat)
    requires i < |machs| && MachName(n) in MachRun(h, machs, cfg)[i]
    ensures n == machs[i].Floor && PrevMachAt(h, machs, i).Floor < n
  {
    MachRunStep(h, machs, cfg, i);
    FiresOnlyOnRise(h.(prevMach := PrevMachAt(h, machs, i)), machs[i], cfg, n);
  }

  lemma FiresOnlyOnRise(h: History, mach: real, cfg: Config, n: int)
    requires MachName(n) in ProcessMach(h, mach, cfg).1
    ensures n == mach.Floor && h.prevMach.Floor < n
  {
  }

  lemma {:induction false} MonotoneFloor(machs: seq<real>, i: nat, j: nat)
    requires forall k :: 0 < k < |machs| ==> machs[k - 1] <= machs[k]
    requires i <= j < |machs|
    ensures machs[i].Floor <= machs[j].Floor
    decreases j - i
  {
    if i < j {
      MonotoneFloor(machs, i + 1, j);
    }
  }

  /** Crossing two bands in one tick calls out only the band reached. */
  lemma SkippedBandIsSilent(h: History, cfg: Config)
    requires h.prevMach == 0.9 && 1 in cfg.machEnabled && 2 in cfg.machEnabled
    ensures ProcessMach(h, 2.1, cfg).1 == [MachName(2)]
  {
    assert (2.1).Floor == 2;
  }
}

=== FILE: soundpack.dfy ===
/**
 The sound pack: which file of the selected pack directory backs each callout
 identifier, and what playing an identifier does with the resulting cache.
 The file system and the audio decoder are outside the model; they appear as
 two predicates over file names relative to the sound pack directory.
 */
module SoundPack {
  import opened Types
  import opened Callouts

  datatype AudioFormat = Wav | OggVorbis

  /** A decoded clip, named after its identifier, with the file it came from. */
  datatype Clip = Clip(name: string, file: string, format: AudioFormat)

  function WavFile(id: string): string {
    id + ".wav"
  }

  function OggFile(id: string): string {
    id + ".ogg"
  }

  /** The clip an identifier resolves to. The .wav file is preferred; the .ogg
      file is tried only when there is no .wav file at all, so a .wav file that
      fails to decode leaves the identifier without a clip. `fileExists(f)` says
      file `f` is present, `decodes(f)` that loading it yields a clip. */
  function ResolveClip(id: string, fileExists: string -> bool, decodes: string -> bool): (r: Option<Clip>)
    ensures r.Some? ==> r.value.name == id
    ensures fileExists(WavFile(id)) ==>
              (r.Some? <==> decodes(WavFile(id)))
              && (r.Some? ==> r.value.format == Wav && r.value.file == WavFile(id))
    ensures !fileExists(WavFile(id)) ==>
              (r.Some? <==> fileExists(OggFile(id)) && decodes(OggFile(id)))
              && (r.Some? ==> r.value.format == OggVorbis && r.value.file == OggFile(id))
  {
    var (file, format) := if fileExists(WavFile(id)) then (WavFile(id), Wav) else (OggFile(id), OggVorbis);
    if fileExists(file) && decodes(file) then Some(Clip(id, file, format)) else None
  }

  /** The identifiers a load tries: the named callouts, then "Mach 1" to
      "Mach 10" appended one by one. */
  method FilesToLoad() returns (files: seq<string>)
    ensures files == CalloutIds
    ensures |files| == 30
  {
    files := NamedIds;
    for n := 1 to 11
      invariant files == NamedIds + MachIdList(n - 1)
    {
      files := files + [MachName(n)];
    }
  }

  /** Resolves each identifier of `files` in turn, storing those that have a
      clip. */
  method ResolveAll(files: seq<string>, fileExists: string -> bool, decodes: string -> bool)
    returns (cache: map<string, Clip>)
    ensures forall id :: id in cache ==> id in files && Some(cache[id]) == ResolveClip(id, fileExists, decodes)
    ensures forall id :: id in files ==> (id in cache <==> ResolveClip(id, fileExists, decodes).Some?)
    ensures |cache| <= |files|
  {
    cache := map[];
    var i := 0;
    while i < |files|
      invariant 0 <= i <= |files|
      invariant |cache| <= i
      invariant forall id :: id in cache ==> id in files[..i] && Some(cache[id]) == ResolveClip(id, fileExists, decodes)
      invariant forall k :: 0 <= k < i ==> (files[k] in cache <==> ResolveClip(files[k], fileExists, decodes).Some?)
    {
      var id := files[i];
      var clip := ResolveClip(id, fileExists, decodes);
      if clip.Some? {
        cache := cache[id := clip.value];
      }
      i := i + 1;
    }
  }

  /** Loading the selected sound pack. A missing pack directory leaves the
      cache empty and the sound pack not loaded; otherwise every identifier of
      the fixed list is resolved, those without a clip are omitted, and the
      sound pack counts as loaded. */
  method LoadSoundPack(packExists: bool, fileExists: string -> bool, decodes: string -> bool)
    returns (cache: map<string, Clip>, loaded: bool)
    ensures loaded == packExists
    ensures !packExists ==> cache == map[]
    ensures forall id :: id in cache ==> id in CalloutIds && cache[id].name == id
    ensures packExists ==> forall id :: id in CalloutIds ==>
              (id in cache <==> ResolveClip(id, fileExists, decodes).Some?)
              && (id in cache ==> Some(cache[id]) == ResolveClip(id, fileExists, decodes))
    ensures |cache| <= 30
  {
    if !packExists {
      return map[], false;
    }
    var filesToLoad := FilesToLoad();
    cache := ResolveAll(filesToLoad, fileExists, decodes);
    loaded := true;
  }

  /** Looking up an identifier to play: its cached clip, or nothing. */
  function PlaySound(cache: map<string, Clip>, id: string): (r: Option<Clip>)
    ensures r.Some? <==> id in cache
    ensures r.Some? ==> r.value == cache[id]
  {
    if id in cache then Some(cache[id]) else None
  }

  /** The clips actually played for a tick's identifiers, in emission order:
      identifiers without a clip are skipped. */
  function Playback(cache: map<string, Clip>, ids: seq<string>): (r: seq<Clip>)
    ensures |r| <= |ids|
    ensures forall c :: c in r ==> exists id :: id in ids && id in cache && cache[id] == c
    ensures forall id :: id in ids && id in cache ==> cache[id] in r
    ensures (forall id :: id in ids ==> id !in cache) <==> r == []
  {
    if ids == [] then []
    else
      match PlaySound(cache, ids[0])
      case Some(c) => [c] + Playback(cache, ids[1..])
      case None => Playback(cache, ids[1..])
  }

  /** Playback of two lists one after the other is the playback of their
      concatenation: clips keep the order of their identifiers. */
  lemma {:induction false} PlaybackAppend(cache: map<string, Clip>, a: seq<string>, b: seq<string>)
    ensures Playback(cache, a + b) == Playback(cache, a) + Playback(cache, b)
    decreases |a|
  {
    if a == [] {
      assert a + b == b;
    } else {
      assert (a + b)[1..] == a[1..] + b;
      PlaybackAppend(cache, a[1..], b);
    }
  }

  /** The positions of `ids` whose identifier is cached with clip `c`. */
  function PlayPositions(cache: map<string, Clip>, ids: seq<string>, c: Clip): set<int> {
    set i | 0 <= i < |ids| && ids[i] in cache && cache[ids[i]] == c
  }

  /** Each clip is played exactly as many times as there are positions of
      the list whose identifier is cached with that clip: once per request,
      never duplicated, never dropped. */
  lemma {:induction false} PlaybackCounts(cache: map<string, Clip>, ids: seq<string>, c: Clip)
    ensures multiset(Playback(cache, ids))[c] == |PlayPositions(cache, ids, c)|
    decreases |ids|
  {
    if ids == [] {
      assert PlayPositions(cache, ids, c) == {};
    } else {
      var n := |ids| - 1;
      var front := ids[..n];
      assert ids == front + [ids[n]];
      PlaybackAppend(cache, front, [ids[n]]);
      PlaybackCounts(cache, front, c);
      PlayPositionsSnoc(cache, front, ids[n], c);
    }
  }

  /** Extending the list by one identifier adds its position if and only if
      it is cached with `c`, and its playback adds that clip once. */
  lemma PlayPositionsSnoc(cache: map<string, Clip>, front: seq<string>, id: string, c: Clip)
    ensures multiset(Playback(cache, [id]))[c] == (if id in cache && cache[id] == c then 1 else 0)
    ensures |PlayPositions(cache, front + [id], c)|
            == |PlayPositions(cache, front, c)| + (if id in cache && cache[id] == c then 1 else 0)
  {
    var ids := front + [id];
    var n := |front|;
    var earlier := PlayPositions(cache, front, c);
    assert Playback(cache, [id]) == (if id in cache then [cache[id]] else []);
    if id in cache && cache[id] == c {
      assert PlayPositions(cache, ids, c) == earlier + {n};
      assert n !in earlier;
    } else {
      assert PlayPositions(cache, ids, c) == earlier;
    }
  }
}

=== FILE: text.dfy ===
/**
 The two pieces of string handling the announcer relies on: rendering an
 integer in decimal (how the altitude and Mach callout identifiers are
 spelled) and ordinal substring search (how the gear-state name is
 classified).
 */
module Text {

  predicate IsDigit(c: char) {
    '0' <= c <= '9'
  }

  function DigitChar(d: nat): (c: char)
    requires d < 10
    ensures IsDigit(c)
  {
    (('0' as int) + d) as char
  }

  function DigitValue(c: char): (d: nat)
    requires IsDigit(c)
    ensures d < 10
  {
    (c as int) - ('0' as int)
  }

  /** Decimal rendering of a natural number, most significant digit first,
      without leading zeros. */
  function NatToString(n: nat): (s: string)
    ensures 1 <= |s|
    ensures forall i :: 0 <= i < |s| ==> IsDigit(s[i])
    ensures 1 < |s| ==> s[0] != '0'
    ensures n < 10 <==> |s| == 1
    decreases n
  {
    if n < 10 then [DigitChar(n)] else NatToString(n / 10) + [DigitChar(n % 10)]
  }

  /** Decimal rendering of an integer as .NET formats it: a leading '-' for
      negative values. */
  function IntToString(i: int): (s: string)
    ensures 1 <= |s|
    ensures 0 <= i ==> forall k :: 0 <= k < |s| ==> IsDigit(s[k])
    ensures i < 0 ==> s[0] == '-'
  {
    if i < 0 then "-" + NatToString(-i) else NatToString(i)
  }

  /** The value of a string of decimal digits; the inverse of NatToString. */
  function ParseNat(s: string): nat
    requires forall i :: 0 <= i < |s| ==> IsDigit(s[i])
  {
    if |s| == 0 then 0 else 10 * ParseNat(s[..|s| - 1]) + DigitValue(s[|s| - 1])
  }

  lemma {:induction false} ParseNatToString(n: nat)
    ensures ParseNat(NatToString(n)) == n
    decreases n
  {
    var s := NatToString(n);
    if n < 10 {
      assert s[..0] == [];
    } else {
      var a := NatToString(n / 10);
      assert s == a + [DigitChar(n % 10)];
      assert s[..|s| - 1] == a;
      ParseNatToString(n / 10);
    }
  }

  /** Different numbers are spelled differently. */
  lemma NatToStringInjective(m: nat, n: nat)
    ensures NatToString(m) == NatToString(n) ==> m == n
  {
    ParseNatToString(m);
    ParseNatToString(n);
  }

  lemma IntToStringInjective(i: int, j: int)
    ensures IntToString(i) == IntToString(j) ==> i == j
  {
    if IntToString(i) == IntToString(j) {
      if i < 0 && j < 0 {
        assert IntToString(i)[1..] == NatToString(-i);
        assert IntToString(j)[1..] == NatToString(-j);
        NatToStringInjective(-i, -j);
      } else if 0 <= i && 0 <= j {
        NatToStringInjective(i, j);
      }
    }
  }

  /** `sub` occurs in `s` starting at index `i`. */
  predicate OccursAt(s: string, sub: string, i: int) {
    0 <= i && i + |sub| <= |s| && s[i..i + |sub|] == sub
  }

  /** Ordinal substring test, as .NET's String.Contains(string): the empty
      string occurs in every string. */
  predicate Contains(s: string, sub: string)
    decreases |s|
  {
    if |s| < |sub| then false
    else s[..|sub|] == sub || Contains(s[1..], sub)
  }

  lemma {:induction false} ContainsIffOccurs(s: string, sub: string)
    ensures Contains(s, sub) <==> exists i :: OccursAt(s, sub, i)
    decreases |s|
  {
    if |s| < |sub| {
      forall i | OccursAt(s, sub, i) ensures false {
      }
    } else if s[..|sub|] == sub {
      assert OccursAt(s, sub, 0);
    } else {
      ContainsIffOccurs(s[1..], sub);
      if Contains(s[1..], sub) {
        var i :| OccursAt(s[1..], sub, i);
        assert s[i + 1..i + 1 + |sub|] == s[1..][i..i + |sub|];
        assert OccursAt(s, sub, i + 1);
      } else {
        forall i | OccursAt(s, sub, i) ensures false {
          if i == 0 {
          } else {
            assert s[1..][i - 1..i - 1 + |sub|] == s[i..i + |sub|];
            assert OccursAt(s[1..], sub, i - 1);
          }
        }
      }
    }
  }

  /** A witness position is enough to establish Contains. */
  lemma ContainsAt(s: string, sub: string, i: int)
    requires OccursAt(s, sub, i)
    ensures Contains(s, sub)
  {
    ContainsIffOccurs(s, sub);
  }

  /** A string cannot contain a substring that has a character it lacks. */
  lemma MissingCharExcludes(s: string, sub: string, c: char)
    requires c in sub && c !in s
    ensures !Contains(s, sub)
  {
    ContainsIffOccurs(s, sub);
  }
}

=== FILE: types.dfy ===
/**
 The announcer's data model: the configuration snapshot the detectors read,
 the fields of the tracked aircraft read on each tick, and the previous-tick
 history that edge detection compares against.
 */
module Types {

  datatype Option<+T> = None | Some(value: T)

  /** How the 2500 callout is voiced: "Twenty Five Hundred" or
      "Two Thousand Five Hundred". */
  datatype AltCalloutStyle = American | British

  /** The host game's landing-gear state enumeration. Its members are not part
      of this model; a state is identified by its member name, which is what
      the up-and-locked classification inspects. */
  datatype GearState = GearState(name: string)

  /** The one member the announcer names explicitly. */
  const LockedExtended: GearState := GearState("LockedExtended")

  /** Every enabled flag and the 2500 style, read as one snapshot. */
  datatype Config = Config(
    altEnabled: set<int>,     // altitude thresholds (display units) whose callout is on
    style2500: AltCalloutStyle,
    subsonicEnabled: bool,
    machEnabled: set<int>,    // Mach numbers whose callout is on
    gearDownEnabled: bool,
    gearUpEnabled: bool,
    gearDownLockedEnabled: bool,
    gearUpLockedEnabled: bool,
    contactEnabled: bool)

  /** The Mach keys the configuration binds: 1 to 10. */
  predicate IsMachKey(n: int) {
    1 <= n <= 10
  }

  /** A configuration as the plugin builds it: only Mach keys 1..10 exist. */
  predicate ValidConfig(cfg: Config) {
    forall n :: n in cfg.machEnabled ==> IsMachKey(n)
  }

  /** No element occurs twice: each callout of a tick is played once. */
  predicate NoDuplicates<T(==)>(s: seq<T>) {
    forall i, j :: 0 <= i < j < |s| ==> s[i] != s[j]
  }

  /** What one tick reads from the tracked aircraft. `mach` is the aircraft's
      speed over the local speed of sound, and `wheelsOnGround` holds, for each
      landing gear cached at hook time, whether it has weight on its wheel. */
  datatype Sample = Sample(
    radarAlt: real,
    mach: real,
    gearDeployed: bool,
    gearState: GearState,
    wheelsOnGround: seq<bool>)

  /** The previous-tick values the detectors compare against. */
  datatype History = History(
    prevRadarAlt: real,
    prevMach: real,
    prevGearDeployed: bool,
    prevGearState: GearState,
    wasGrounded: bool,
    contactArmed: bool)

  /** Metres to feet, applied when the game's unit setting is imperial. */
  const FeetPerMetre: real := 3.28084

  function DisplayAltitude(radarAlt: real, imperial: bool): (a: real)
    ensures !imperial ==> a == radarAlt
    ensures imperial ==> a == radarAlt * FeetPerMetre
    ensures 0.0 <= radarAlt ==> radarAlt <= a
    ensures radarAlt < 0.0 ==> a <= radarAlt
  {
    if imperial then radarAlt * FeetPerMetre else radarAlt
  }
}
